=== FILE: README.md ===
# Temperature dashboard polling core, in Dafny

This project models the logic inside a browser dashboard that polls a
temperature sensor on an embedded device over HTTP. Everything else in the
dashboard is network I/O or rendering. The modelled logic is:

- **The reading fetcher** (`TemperatureService`). It sends one GET to the URL
  fixed when the service is constructed. A status outside 200–299 is an
  error, using the ok status of section 2.2.3 (Statuses) of the WHATWG Fetch
  Standard. An ok response becomes a reading. The reading keeps the body's
  temperature verbatim. Its timestamp defaults to the receipt time when the
  body's timestamp is falsy.
- **The polling hook** (`UseTemperature`). Its state is
  `(data, currentTemp, isLoading, error)`. Three events change it:
  - an attempt begins, which clears the error;
  - an attempt resolves with a reading, which is appended to a history cut
    to the last `maxDataPoints` entries, becomes the current temperature and
    ends loading;
  - an attempt rejects, which records the error and ends loading.

  Each completion handler runs to the end before the next event is applied.
  So the hook is modelled as pure transition functions folded over a
  sequence of events (`Run`).
- **The bounded window** (`SlidingWindow`). The hook cuts the history with
  `Array.prototype.slice(-maxDataPoints)`, which is section 23.1.3.28 of the
  ECMAScript Language Specification. This is modelled exactly, including the
  clamping of a negative start and the fact that `-0` is `0`.
- **The view predicates** (`App`, `TemperatureDisplay`). These decide when
  the error banner, the history chart and the "waiting for data" message are
  shown. They also decide which of the three renderings the
  current-temperature panel uses: Loading, No Data or the value.

`Scenarios` proves four concrete cases:
- a window of three that fills up and then evicts;
- a first attempt answered with HTTP 500;
- two overlapping attempts, one failing and one succeeding;
- a body without a timestamp.

A few facts about the code shape the model:
- The error is cleared when an attempt starts (`OnBegin`,
  hmi_app/src/hooks/useTemperature.ts:24), not when it succeeds.
- `isLoading` is true from construction (useTemperature.ts:19), and no
  handler sets it back to true (useTemperature.ts:34, 37).
- The initial state `UseTemperature.Init` has an empty history, no current
  temperature, loading set and no error (useTemperature.ts:17-20).
- The hook calls the shared service instance `TemperatureService.SharedService`,
  which is built with the default URL (TemperatureService.ts:40).
  `UseTemperature.FetchData` is stated for every service, so it covers the
  shared one.
- There is no check of the body's shape. A body whose JSON does not parse
  rejects with the parser's own error (`JsonError`). A body that decodes to
  `null` rejects with the `TypeError` from reading its `temperature`
  (`NullBodyError`, TemperatureService.ts:29), re-raised by the catch. An
  object body's `temperature` is taken as is.
- The hook has no guard of its own against a result that arrives after
  unmount; only the interval timer is cleared (useTemperature.ts:49). What
  React does with such an update is not modelled.

## Model

| member | source | states |
|---|---|---|
| SlidingWindow.Slice | hmi_app/src/hooks/useTemperature.ts:31 | `slice(start)` with one integer argument is a suffix of the array. A non-negative start drops `min(start, len)` entries. A negative start keeps the last `min(-start, len)` entries. |
| SlidingWindow.KeepLast | hmi_app/src/hooks/useTemperature.ts:28-32 | `slice(-n)` keeps a suffix of the array. For `n >= 1` its length is `min(len, n)`. For `n == 0` it is the whole array. A negative `n` drops `-n` entries from the front. |
| SlidingWindow.KeepLastAppend | hmi_app/src/hooks/useTemperature.ts:29-31 | After appending `x` and cutting to `n >= 1`, `x` is the last entry. The entries before it are the newest `min(len, n-1)` old entries, in order. |
| SlidingWindow.KeepLastAfterAppend | hmi_app/src/hooks/useTemperature.ts:28-32 | For `n >= 0`, cutting the window at every append gives the same history as cutting once at the end. |
| TemperatureService.NewService | hmi_app/src/services/TemperatureService.ts:9-13 | The service's URL is the constructor argument. Without an argument it is the configured device endpoint. |
| TemperatureService.Decide | hmi_app/src/services/TemperatureService.ts:20-35 | A reading is produced exactly for an ok status (200–299) with a decodable body. A non-ok status is `HttpError(status)` whatever the body. Transport and JSON errors are re-raised unchanged, and a `null` body rejects with the property-access error. The temperature is verbatim. The timestamp is kept iff it is truthy, otherwise it is `now`. |
| TemperatureService.IsOk | hmi_app/src/services/TemperatureService.ts:23 | `response.ok` holds iff the status is in the 2xx class, 200–299 inclusive. |
| TemperatureService.IsTruthy | hmi_app/src/services/TemperatureService.ts:30 | The body's timestamp is truthy for `||` iff it is present and non-zero. |
| TemperatureService.FetchTemperature | hmi_app/src/services/TemperatureService.ts:19-35 | One call makes exactly one request, to the service's own URL, with no retry. It fails iff the response is not an ok, decodable one. |
| TemperatureService.NonOkNeverReads | hmi_app/src/services/TemperatureService.ts:23-25 | A non-ok response always gives the status error and never a reading. |
| TemperatureService.SharedServiceRequestsEndpoint | hmi_app/src/services/TemperatureService.ts:11-12 | The shared instance requests only the configured endpoint. |
| TemperatureService.OkResponseReading | hmi_app/src/services/TemperatureService.ts:27-31 | An ok response gives `Reading(temperature, ts)`. A missing or zero timestamp becomes `now`, so `||` treats 0 as falsy. Any other timestamp is kept. |
| UseTemperature.Resolve | hmi_app/src/hooks/useTemperature.ts:14-15 | A missing option defaults to 5000 ms and 20 points. A supplied option, even 0, is kept. |
| UseTemperature.OnBegin | hmi_app/src/hooks/useTemperature.ts:24 | Starting an attempt sets `error` to null and changes nothing else. |
| UseTemperature.OnSucceed | hmi_app/src/hooks/useTemperature.ts:27-34 | On success, for `n >= 1` the history has length `min(old+1, n)` and ends with the new reading. For `n == 0` it is `old ++ [r]`. `currentTemp` is the reading's temperature and loading ends. |
| UseTemperature.OnFail | hmi_app/src/hooks/useTemperature.ts:35-38 | On failure, `error` is set and loading ends. `data` and `currentTemp` are unchanged. |
| UseTemperature.Step | hmi_app/src/hooks/useTemperature.ts:22-38 | A start changes only the error, which it clears. Every settled attempt ends loading. Only a success changes the history or the current temperature. A failure records its error. |
| UseTemperature.Successes | hmi_app/src/hooks/useTemperature.ts:25-31 | The readings the successful attempts deliver: every one comes from a success event, and every success event's reading is among them. |
| UseTemperature.NoHistoryWhileLoading | hmi_app/src/hooks/useTemperature.ts:19-34 | From the initial state, the history is empty while `isLoading` is still true, since only a settled success appends and it also ends loading. |
| UseTemperature.RunIsFoldOfStep | hmi_app/src/hooks/useTemperature.ts:22-38 | Running a sequence and then one more event equals applying `Step` to the state the sequence reached. This is definitional: `Step` is the run of one event, so the lemma only records that `Run` is the left fold of `Step`. |
| UseTemperature.SuccessKeepsSuffix | hmi_app/src/hooks/useTemperature.ts:28-32 | The survivors of a success are a contiguous suffix of `old ++ [r]` in arrival order. Only the oldest entries are evicted. |
| UseTemperature.SuccessBelowBound | hmi_app/src/hooks/useTemperature.ts:28-32 | While the window is not full, a success evicts nothing. |
| UseTemperature.SuccessAtBound | hmi_app/src/hooks/useTemperature.ts:28-32 | When the window is full, a success evicts exactly the oldest reading. |
| UseTemperature.Run | hmi_app/src/hooks/useTemperature.ts:17-38 | Across any event sequence, loading never comes back once it has ended. The bound `|data| <= n` is kept for `n >= 1`. For `n >= 0`, "`data` is empty iff `currentTemp` is null, and otherwise `currentTemp` is the newest reading's" is preserved. |
| UseTemperature.RunHistory | hmi_app/src/hooks/useTemperature.ts:17-38 | From the initial state with `n >= 0`, `data` is the window of all successful readings. `currentTemp` is the temperature of the last of them, or null if there are none. |
| UseTemperature.HistoryIsLatestSuccesses | hmi_app/src/hooks/useTemperature.ts:28-32 | For `n >= 1`, the history is exactly the last `min(k, n)` of the `k` successful readings, in arrival order. |
| UseTemperature.LoadingUntilSettled | hmi_app/src/hooks/useTemperature.ts:19-37 | From the initial state, `isLoading` holds iff no attempt has settled yet. |
| UseTemperature.FailuresKeepData | hmi_app/src/hooks/useTemperature.ts:35-38 | Any run of starts and failures leaves `data` and `currentTemp` unchanged. |
| UseTemperature.ReachableInvariant | hmi_app/src/hooks/useTemperature.ts:17-38 | Every reachable state with `n >= 1` holds at most `n` readings. It has `data == []` iff `currentTemp == null`. |
| UseTemperature.FetchData | hmi_app/src/hooks/useTemperature.ts:22-39 | After a call, loading has ended. On a service error the error is recorded and data and temperature are kept. On success the error is null, `currentTemp` is the reading's temperature and, for `n >= 1`, the reading is the newest entry. It is stated for every service, so it covers `SharedService`, the one the hook calls. |
| UseTemperature.FetchDataIsBeginThenSettle | hmi_app/src/hooks/useTemperature.ts:22-39 | One `fetchData` call equals the start event followed by the settle event. |
| UseTemperature.ZeroWindowKeepsEverything | hmi_app/src/hooks/useTemperature.ts:31 | With `maxDataPoints = 0`, `slice(-0)` keeps everything: the history is every successful reading. |
| TemperatureDisplay.Select | hmi_app/src/components/TemperatureDisplay.tsx:10-35 | Exactly one branch is chosen. Loading iff loading. No Data iff not loading and no temperature. The value branch iff not loading with a temperature, and it shows that temperature. |
| TemperatureDisplay.LoadingIgnoresTemperature | hmi_app/src/components/TemperatureDisplay.tsx:11-17 | While loading, the Loading branch is chosen whatever the temperature. |
| App.ShowErrorBanner | hmi_app/src/App.tsx:25-30 | The banner is shown iff there is an error, whatever data is present, and then the waiting message is not. |
| App.ShowChart | hmi_app/src/App.tsx:35-40 | The chart is shown iff the history is non-empty. |
| App.ShowWaiting | hmi_app/src/App.tsx:42-46 | The waiting message is shown iff loading has ended, the history is empty and there is no error, and then the chart is not. |
| App.Panel | hmi_app/src/App.tsx:33 | The panel is Loading iff the hook is loading, No Data iff loading has ended without a temperature, and otherwise shows the hook's current temperature. |
| App.AppConfiguration | hmi_app/src/App.tsx:12-15 | The page configures the hook with an interval of 5000 ms and a window of 20. |
| App.WaitingExcludesOthers | hmi_app/src/App.tsx:25-46 | The waiting message is never shown with the error banner, with the chart, or while loading. |
| App.SettledPageShowsSomething | hmi_app/src/App.tsx:25-46 | Once loading has ended, at least one of the banner, the chart and the waiting message is shown. |
| App.AppHistoryBound | hmi_app/src/App.tsx:12-15 | With the page's configuration, the history never exceeds 20 readings. It always holds the latest successful ones. |
| App.PanelAgreesWithPage | hmi_app/src/App.tsx:24-47 | In every reachable state, the panel shows a value iff the chart is shown (so the chart never appears while loading), and the value is the newest reading's. The panel shows No Data iff loading has ended with an empty history, and then the waiting message or the banner is shown. |
| Scenarios.WindowOfThreeScenario | hmi_app/src/hooks/useTemperature.ts:28-32 | A window of three receiving `a, b, c` holds `[a, b, c]`. A fourth reading `d` gives `[b, c, d]`. |
| Scenarios.FirstAttemptServerError | hmi_app/src/services/TemperatureService.ts:23-25 | A first answer of HTTP 500 ends loading and leaves data and temperature empty. The error is `HttpError(500)` and the banner is shown. The waiting message and chart are not shown, and the panel says No Data. |
| Scenarios.OverlappingAttempts | hmi_app/src/hooks/useTemperature.ts:24-37 | Two attempts started before either settles, the first failing with `e` and the second delivering `r`, with window 20: the run of those events keeps the error `e` beside the history `[r]`, loading has ended, and the banner and the chart are both shown with the panel showing `r`'s temperature. No handler clears an error on success. |
| Scenarios.OverlappingAttemptsRun | hmi_app/src/hooks/useTemperature.ts:22-38 | Applying the start handler twice, then the failure handler, then the success handler is exactly the run of the events `[Begin, Begin, Fail(e), Succeed(r)]`, so the handler-level trace above is a trace the hook model allows. |
| Scenarios.FirstReadingWithoutTimestamp | hmi_app/src/services/TemperatureService.ts:30 | A first ok body without a timestamp gives a history of one reading stamped with the receipt time. The panel shows its temperature. |

## Left out

- The network `fetch`, `response.json()` and `console.error` are foreign browser APIs. How a request settles is an input (`Outcome`), and the logging is dropped.
- `Date.now()` is passed in as the parameter `now`.
- `setInterval`/`clearInterval`, React's `useState`/`useEffect`/`useCallback`, re-rendering and batching of state updates are not modelled. `refreshInterval` is only resolved to its default.
- Overlapping attempts are covered at the level of their handlers only: `Run` accepts start and settle events in any interleaving (`Scenarios.OverlappingAttempts` is one). Which settle event belongs to which start is not recorded, and `UseTemperature.FetchData` treats one call as atomic (start and settle with nothing in between).
- A separate "malformed body" error class is not modelled, because the code has none. A body whose `temperature` is not a number is not detected by the code. The model types the temperature as `real`, so that case cannot be expressed.
- Floating-point behaviour, `toFixed(2)` and locale time formatting are left out. Temperatures are `real`.
- TemperatureService.Decide: a body is an object, `null` or unparseable text. Bodies that decode to a number, string, boolean or array are not represented; the code turns them into a reading whose temperature is `undefined`. Inside an object body, the timestamp is an optional integer, so JSON `null`, `false`, `""`, strings and fractional numbers are not represented. A JSON `null` temperature, which would make `currentTemp` null while data is present, is not representable either.
- SlidingWindow.KeepLast: `maxDataPoints` is an integer. Fractional and infinite window sizes, which `slice` would truncate or clamp, are not modelled.
- `hmi_app/src/components/TemperatureChart.tsx` is a rendering wrapper whose only logic is an order-preserving `map` plus locale formatting. The chart is modelled only as "shown iff the history is non-empty".
- `hmi_app/src/config/api.config.ts` is static configuration. Its address is inlined as `TemperatureService.DeviceAddress` and `TemperatureEndpoint`.
- `types/Temperature.ts` is not part of this model. `Reading` is defined from how the code uses it: a temperature and an epoch-millisecond timestamp.

=== FILE: app.dfy ===
/** The dashboard page: how it configures the polling hook and which parts
    it shows for a hook state. Layout, styling and the chart renderer are
    not modelled; each visible part is a predicate of the state. */
module App {
  import opened Wrappers
  import opened SlidingWindow
  import opened UseTemperature
  import opened TemperatureDisplay

  /** The page polls every 5000 ms and keeps the last 20 readings. */
  const AppOptions: Options := Options(Some(5000), Some(20))

  /** The history chart: shown whenever the history is non-empty. */
  function ShowChart(s: State): (shown: bool)
    ensures shown <==> s.data != []
  {
    |s.data| > 0
  }

  /** The "waiting for data" message: shown once loading has ended with an
      empty history and no error, so never beside the chart. */
  function ShowWaiting(s: State): (shown: bool)
    ensures shown <==> !s.isLoading && s.data == [] && s.error == None
    ensures shown ==> !ShowChart(s)
  {
    !s.isLoading && |s.data| == 0 && s.error.None?
  }

  /** The error banner naming the device: shown whenever there is an error,
      whatever data is also present, so never beside the waiting message. */
  function ShowErrorBanner(s: State): (shown: bool)
    ensures shown <==> s.error != None
    ensures shown ==> !ShowWaiting(s)
  {
    s.error.Some?
  }

  /** The branch of the current-temperature panel for a state: it follows
      the loading flag, and shows the hook's current temperature once
      loading has ended. */
  function Panel(s: State): (b: Branch)
    ensures b.Loading? <==> s.isLoading
    ensures b.NoData? <==> !s.isLoading && s.currentTemp == None
    ensures b.Current? ==> s.currentTemp == Some(b.temperature)
  {
    Select(s.currentTemp, s.isLoading)
  }

  /** The page's hook configuration resolves to an interval of 5000 ms and
      a window of 20. */
  lemma AppConfiguration()
    ensures Resolve(AppOptions) == Config(5000, 20)
  {
  }

  /** The waiting message never appears with the error banner, with the
      chart, or while loading. */
  lemma WaitingExcludesOthers(s: State)
    ensures ShowWaiting(s) ==> !ShowErrorBanner(s) && !ShowChart(s) && !s.isLoading
  {
  }

  /** Once loading has ended, the page shows at least one of the error
      banner, the chart and the waiting message. */
  lemma SettledPageShowsSomething(s: State)
    ensures !s.isLoading ==> ShowErrorBanner(s) || ShowChart(s) || ShowWaiting(s)
  {
  }

  /** With the page's configuration, after any events the history holds at
      most 20 readings, and they are the latest successful ones. */
  lemma AppHistoryBound(events: seq<Event>)
    ensures var rs := Successes(events);
      var d := Run(Init, events, Resolve(AppOptions).maxDataPoints).data;
      && |d| <= 20
      && d == rs[|rs| - Min(|rs|, 20)..]
  {
    HistoryIsLatestSuccesses(events, 20);
  }

  /** In every state the hook reaches with a non-negative window, the panel
      and the rest of the page agree: the panel shows a value exactly when
      the chart is shown, and that value is the newest reading's; it shows
      "No Data" exactly when loading has ended with an empty history, and
      then the waiting message or the error banner explains why. */
  lemma PanelAgreesWithPage(events: seq<Event>, n: int)
    requires n >= 0
    ensures var s := Run(Init, events, n);
      && (Panel(s).Current? <==> !s.isLoading && ShowChart(s))
      && (Panel(s).Current? <==> ShowChart(s))
      && (Panel(s).Current? ==> Panel(s).temperature == s.data[|s.data| - 1].temperature)
      && (Panel(s).NoData? <==> !s.isLoading && !ShowChart(s))
      && (Panel(s).NoData? ==> ShowWaiting(s) || ShowErrorBanner(s))
  {
    assert Coherent(Init);
    NoHistoryWhileLoading(events, n);
  }
}

=== FILE: scenarios.dfy ===
/** Concrete cases of the dashboard, proved for all readings: a window of three filling up and
    evicting, a device answering HTTP 500 on the first attempt, two
    overlapping attempts that settle differently, and a body without a
    timestamp. */
module Scenarios {
  import opened Wrappers
  import opened TemperatureService
  import opened UseTemperature
  import opened TemperatureDisplay
  import opened App

  /** Below a full window of three, a success only appends. */
  lemma Appended(s: State, x: Reading, d: seq<Reading>)
    requires s.data == d && |d| < 3
    ensures OnSucceed(s, x, 3).data == d + [x]
  {
    SuccessBelowBound(s, x, 3);
  }

  /** A window of three receiving readings `a`, `b` and `c` keeps all
      three in arrival order; a fourth reading `d` then evicts `a`, the
      oldest. */
  lemma WindowOfThreeScenario(a: Reading, b: Reading, c: Reading, d: Reading,
                              s1: State, s2: State, s3: State, s4: State)
    requires s1 == OnSucceed(Init, a, 3) && s2 == OnSucceed(s1, b, 3)
    requires s3 == OnSucceed(s2, c, 3) && s4 == OnSucceed(s3, d, 3)
    ensures s3.data == [a, b, c]
    ensures s4.data == [b, c, d]
  {
    Appended(Init, a, []);
    Appended(s1, b, [a]);
    Appended(s2, c, [a, b]);
    SuccessAtBound(s3, d, 3);
    assert s3.data[1..] == [b, c];
  }

  /** The first attempt is answered with status 500: loading ends, there is
      still no data and no temperature, the error names the status, the
      banner is shown, the waiting message is not, and the panel says
      "No Data". */
  lemma FirstAttemptServerError(svc: Service, network: string -> Outcome, now: int, body: Body)
    requires network(svc.apiUrl) == Response(500, body)
    ensures var s := FetchData(Init, svc, network, now, 20);
      && !s.isLoading && s.data == [] && s.currentTemp == None
      && s.error == Some(HttpError(500))
      && ShowErrorBanner(s) && !ShowWaiting(s) && !ShowChart(s)
      && Panel(s) == NoData
  {
  }

  /** The first attempt is answered with status 200 and a body without a
      timestamp: the history holds one reading stamped with the receipt
      time, and the panel shows its temperature. */
  lemma FirstReadingWithoutTimestamp(svc: Service, network: string -> Outcome, now: int, t: real)
    requires network(svc.apiUrl) == Response(200, Json(t, None))
    ensures var s := FetchData(Init, svc, network, now, 20);
      && s.data == [Reading(t, now)]
      && Panel(s) == Current(t)
      && ShowChart(s) && !ShowErrorBanner(s) && !ShowWaiting(s)
  {
    SuccessBelowBound(OnBegin(Init), Reading(t, now), 20);
  }

  /** Two attempts in flight at once, the second starting before the first
      settles, then the first rejecting and the second resolving: the
      success handler does not touch the error, so the old error stays
      beside the fresh reading and the page shows both the banner and the
      chart. The states are the handlers applied in that order, which is
      the run of those four events. */
  lemma OverlappingAttempts(e: FetchError, r: Reading, s1: State, s2: State, s3: State, s4: State)
    requires s1 == OnBegin(Init) && s2 == OnBegin(s1)
    requires s3 == OnFail(s2, e) && s4 == OnSucceed(s3, r, 20)
    ensures s4 == Run(Init, [Begin, Begin, Fail(e), Succeed(r)], 20)
    ensures s4.error == Some(e) && s4.data == [r] && !s4.isLoading
    ensures ShowErrorBanner(s4) && ShowChart(s4) && Panel(s4) == Current(r.temperature)
  {
    SuccessBelowBound(s3, r, 20);
    OverlappingAttemptsRun(e, r, s1, s2, s3, s4);
  }

  /** The chain of handlers in `OverlappingAttempts` is the run of its four
      events, one step at a time. */
  lemma OverlappingAttemptsRun(e: FetchError, r: Reading, s1: State, s2: State, s3: State, s4: State)
    requires s1 == OnBegin(Init) && s2 == OnBegin(s1)
    requires s3 == OnFail(s2, e) && s4 == OnSucceed(s3, r, 20)
    ensures s4 == Run(Init, [Begin, Begin, Fail(e), Succeed(r)], 20)
  {
    ThenEvent([], Init, Begin, s1);
    assert [] + [Begin] == [Begin];
    ThenEvent([Begin], s1, Begin, s2);
    assert [Begin] + [Begin] == [Begin, Begin];
    ThenEvent([Begin, Begin], s2, Fail(e), s3);
    assert [Begin, Begin] + [Fail(e)] == [Begin, Begin, Fail(e)];
    ThenEvent([Begin, Begin, Fail(e)], s3, Succeed(r), s4);
    assert [Begin, Begin, Fail(e)] + [Succeed(r)] == [Begin, Begin, Fail(e), Succeed(r)];
  }

  /** One more event after a run from the initial state with window 20 is
      its handler applied to the state the run reached. */
  lemma ThenEvent(events: seq<Event>, s: State, e: Event, t: State)
    requires s == Run(Init, events, 20)
    requires t == match e
                  case Begin => OnBegin(s)
                  case Succeed(reading) => OnSucceed(s, reading, 20)
                  case Fail(err) => OnFail(s, err)
    ensures t == Run(Init, events + [e], 20)
  {
    assert (events + [e])[..|events|] == events;
  }
}

=== FILE: sliding_window.dfy ===
/** The bounded history window: `Array.prototype.slice` called with a single
    start argument, as the polling hook uses it to keep only the most recent
    readings (ECMAScript Language Specification, section 23.1.3.28,
    Array.prototype.slice). */
module SlidingWindow {

  function Min(a: int, b: int): int { if a <= b then a else b }

  function Max(a: int, b: int): int { if a <= b then b else a }

  /** `s.slice(start)` for an integral `start`: a negative start counts back
      from the end and is clamped at 0, a non-negative start is clamped at
      the length; the end defaults to the length. */
  function Slice<T>(s: seq<T>, start: int): (r: seq<T>)
    ensures start >= 0 ==> |r| == |s| - Min(start, |s|)
    ensures start < 0 ==> |r| == Min(-start, |s|)
    ensures r == s[|s| - |r|..]
  {
    var k := if start < 0 then Max(|s| + start, 0) else Min(start, |s|);
    s[k..]
  }

  /** `s.slice(-n)`: what the hook keeps of its history for a window of `n`.
      For `n >= 1` it is the last `Min(|s|, n)` elements; `-0` is `0`, so
      `n == 0` keeps the whole sequence; a negative `n` drops `-n` elements
      from the front instead. */
  function KeepLast<T>(s: seq<T>, n: int): (r: seq<T>)
    ensures n >= 1 ==> |r| == Min(|s|, n)
    ensures n == 0 ==> r == s
    ensures n < 0 ==> |r| == |s| - Min(-n, |s|)
    ensures r == s[|s| - |r|..]
    ensures |r| <= |s|
  {
    Slice(s, -n)
  }

  /** Two suffixes of the same sequence with the same length are equal. */
  lemma SuffixUnique<T>(s: seq<T>, a: seq<T>, b: seq<T>)
    requires |a| <= |s| && a == s[|s| - |a|..]
    requires |b| == |a| && b == s[|s| - |b|..]
    ensures a == b
  {
  }

  /** For a window of at least one element, appending `x` and cutting the
      window keeps `x` as the last element, and every survivor sits at the
      same distance from the end as it did in `s + [x]`: only the oldest
      entries are evicted and arrival order is kept. */
  lemma KeepLastAppend<T>(s: seq<T>, x: T, n: int)
    requires n >= 1
    ensures var r := KeepLast(s + [x], n);
      && |r| >= 1
      && r[|r| - 1] == x
      && r[..|r| - 1] == s[|s| - Min(|s|, n - 1)..]
  {
    var t := s + [x];
    var r := KeepLast(t, n);
    assert r == t[|t| - |r|..];
    var p := s[|s| - Min(|s|, n - 1)..];
    assert |r[..|r| - 1]| == |p|;
    forall i | 0 <= i < |p|
      ensures r[..|r| - 1][i] == p[i]
    {
      assert r[i] == t[|t| - |r| + i];
    }
  }

  /** Cutting the window before or after appending gives the same history
      for every non-negative window size: the window can be applied once per
      append rather than to the whole arrival sequence. */
  lemma KeepLastAfterAppend<T>(s: seq<T>, x: T, n: int)
    requires n >= 0
    ensures KeepLast(KeepLast(s, n) + [x], n) == KeepLast(s + [x], n)
  {
    var w := KeepLast(s, n);
    var a := KeepLast(w + [x], n);
    var b := KeepLast(s + [x], n);
    if n >= 1 {
      assert |a| == |b|;
      var t := s + [x];
      assert (w + [x]) == t[|t| - |w| - 1..];
      assert a == t[|t| - |a|..];
      SuffixUnique(t, a, b);
    }
  }
}

=== FILE: temperature_display.dfy ===
/** The current-temperature panel: which of its three renderings is shown
    for a temperature and a loading flag. Number formatting is not
    modelled; the value branch carries the temperature it shows. */
module TemperatureDisplay {
  import opened Wrappers

  /** The three renderings: "Loading...", "No Data", or the value. */
  datatype Branch = Loading | NoData | Current(temperature: real)

  /** The branch the component returns. Exactly one branch is chosen for
      every input, and each is characterised by its own condition. */
  function Select(temperature: Option<real>, isLoading: bool): (b: Branch)
    ensures b.Loading? <==> isLoading
    ensures b.NoData? <==> !isLoading && temperature.None?
    ensures b.Current? <==> !isLoading && temperature.Some?
    ensures b.Current? ==> b.temperature == temperature.value
  {
    if isLoading then Loading
    else if temperature.None? then NoData
    else Current(temperature.value)
  }

  /** While loading, the temperature has no influence on what is shown. */
  lemma LoadingIgnoresTemperature(t1: Option<real>, t2: Option<real>)
    ensures Select(t1, true) == Select(t2, true) == Loading
  {
  }
}

=== FILE: temperature_service.dfy ===
/** The reading fetcher: one HTTP GET to a URL fixed at construction, and
    the decision that turns the device's answer into a temperature reading
    or an error. The network, `response.json()` and console logging are
    foreign; their outcome is an input here. */
module TemperatureService {
  import opened Wrappers

  /** One temperature sample: degrees Celsius and epoch milliseconds. */
  datatype Reading = Reading(temperature: real, timestamp: int)

  /** The JSON body: a decoded `{temperature, timestamp?}` object, the JSON
      literal `null`, or text that `response.json()` rejects with the given
      cause. */
  datatype Body =
    | Json(temperature: real, timestamp: Option<int>)
    | JsonNull
    | NotJson(cause: string)

  /** How the request settled at the transport level: a response with a
      status code and a body, or a rejection (DNS, refused connection, ...). */
  datatype Outcome =
    | Response(status: int, body: Body)
    | Rejected(cause: string)

  /** The error the call rejects with: the `HTTP error! status: N` error the
      code raises itself; an error thrown by `fetch` or `response.json()`,
      passed on unchanged; or the `TypeError` thrown inside the same `try`
      block when the decoded body is `null` and its `temperature` is read. */
  datatype FetchError =
    | HttpError(status: int)
    | NetworkError(cause: string)
    | JsonError(cause: string)
    | NullBodyError

  /** The device address configured for the dashboard. */
  const DeviceAddress: string := "172.20.10.2"

  /** The endpoint built from the device address. */
  const TemperatureEndpoint: string := "http://" + DeviceAddress + "/api/temperature"

  /** A service instance; its URL is fixed when it is constructed. */
  datatype Service = Service(apiUrl: string)

  /** The constructor: the URL given, or the configured endpoint when the
      argument is left out. */
  function NewService(apiUrl: Option<string>): (svc: Service)
    ensures apiUrl.Some? ==> svc.apiUrl == apiUrl.value
    ensures apiUrl.None? ==> svc.apiUrl == TemperatureEndpoint
  {
    Service(if apiUrl.Some? then apiUrl.value else TemperatureEndpoint)
  }

  /** The shared instance every hook uses. */
  const SharedService: Service := NewService(None)

  /** `response.ok`: the status is in the range 200 to 299 inclusive (Fetch
      Standard, section 2.2.3 Statuses). */
  function IsOk(status: int): (ok: bool)
    ensures ok <==> status / 100 == 2
  {
    200 <= status <= 299
  }

  /** JavaScript truthiness of the optional numeric timestamp: absent and
      zero are falsy, every other number is truthy. */
  function IsTruthy(timestamp: Option<int>): (truthy: bool)
    ensures truthy <==> timestamp != None && timestamp != Some(0)
  {
    timestamp.Some? && timestamp.value != 0
  }

  /** What `fetchTemperature` resolves or rejects with once the transport
      has settled, with `now` standing for `Date.now()` at receipt. */
  function Decide(outcome: Outcome, now: int): (r: Result<Reading, FetchError>)
    // Exactly the ok responses with a decodable body yield a reading.
    ensures r.Success? <==> outcome.Response? && IsOk(outcome.status) && outcome.body.Json?
    // A non-ok status is an error naming that status, whatever the body.
    ensures outcome.Response? && !IsOk(outcome.status) ==> r == Failure(HttpError(outcome.status))
    // Transport and decoding errors are re-raised unchanged.
    ensures outcome.Rejected? ==> r == Failure(NetworkError(outcome.cause))
    ensures outcome.Response? && IsOk(outcome.status) && outcome.body.NotJson? ==>
      r == Failure(JsonError(outcome.body.cause))
    ensures outcome.Response? && IsOk(outcome.status) && outcome.body.JsonNull? ==>
      r == Failure(NullBodyError)
    // The temperature is taken verbatim; the timestamp falls back to `now`
    // exactly when the body's timestamp is falsy.
    ensures r.Success? ==> r.value.temperature == outcome.body.temperature
    ensures r.Success? && IsTruthy(outcome.body.timestamp) ==>
      r.value.timestamp == outcome.body.timestamp.value
    ensures r.Success? && !IsTruthy(outcome.body.timestamp) ==> r.value.timestamp == now
  {
    match outcome
    case Rejected(cause) => Failure(NetworkError(cause))
    case Response(status, body) =>
      if !IsOk(status) then Failure(HttpError(status))
      else match body
        case NotJson(cause) => Failure(JsonError(cause))
        case JsonNull => Failure(NullBodyError)
        case Json(temperature, timestamp) =>
          Success(Reading(temperature, if IsTruthy(timestamp) then timestamp.value else now))
  }

  /** One call of `fetchTemperature`: the URLs it requested, in order, and
      how it settled. */
  datatype Call = Call(requests: seq<string>, result: Result<Reading, FetchError>)

  /** `fetchTemperature` on `svc`, where `network` answers a GET to a URL
      and `now` is the receipt time. The call makes a single request, to the
      service's own URL, and never retries. */
  function FetchTemperature(svc: Service, network: string -> Outcome, now: int): (call: Call)
    ensures |call.requests| == 1 && call.requests[0] == svc.apiUrl
    ensures call.result.Failure? <==>
      !(network(svc.apiUrl).Response? && IsOk(network(svc.apiUrl).status) && network(svc.apiUrl).body.Json?)
  {
    Call([svc.apiUrl], Decide(network(svc.apiUrl), now))
  }

  /** A rejected fetch never yields a reading, for every service and clock:
      a device that answers only with errors produces no data. */
  lemma NonOkNeverReads(svc: Service, network: string -> Outcome, now: int)
    requires network(svc.apiUrl).Response? && !IsOk(network(svc.apiUrl).status)
    ensures FetchTemperature(svc, network, now).result == Failure(HttpError(network(svc.apiUrl).status))
  {
  }

  /** The shared instance asks the configured device endpoint and nothing
      else. */
  lemma SharedServiceRequestsEndpoint(network: string -> Outcome, now: int)
    ensures FetchTemperature(SharedService, network, now).requests == [TemperatureEndpoint]
  {
  }

  /** For an ok response with a decodable body, the reading carries the
      body's temperature; a missing or zero timestamp is replaced by the
      receipt time and any other timestamp is kept. */
  lemma OkResponseReading(temperature: real, timestamp: Option<int>, status: int, now: int)
    requires IsOk(status)
    ensures Decide(Response(status, Json(temperature, timestamp)), now) ==
      Success(Reading(temperature, if timestamp == None || timestamp == Some(0) then now else timestamp.value))
  {
  }
}

=== FILE: use_temperature.dfy ===
/** The polling hook: its state, the three events that change it (an
    attempt begins, an attempt resolves with a reading, an attempt rejects),
    and what any sequence of events leaves behind. Each completion handler
    runs to the end before the next event, so events are applied one at a
    time; timers and re-rendering are not modelled. */
module UseTemperature {
  import opened Wrappers
  import opened SlidingWindow
  import opened TemperatureService

  /** The hook's options as passed; a missing field takes its default. */
  datatype Options = Options(refreshInterval: Option<int>, maxDataPoints: Option<int>)

  /** The options after destructuring with defaults. */
  datatype Config = Config(refreshInterval: int, maxDataPoints: int)

  const DefaultRefreshInterval: int := 5000
  const DefaultMaxDataPoints: int := 20

  /** Destructuring with defaults: a supplied value is kept as is (even 0),
      only a missing one is replaced. */
  function Resolve(options: Options): (c: Config)
    ensures options.refreshInterval.Some? ==> c.refreshInterval == options.refreshInterval.value
    ensures options.refreshInterval.None? ==> c.refreshInterval == 5000
    ensures options.maxDataPoints.Some? ==> c.maxDataPoints == options.maxDataPoints.value
    ensures options.maxDataPoints.None? ==> c.maxDataPoints == 20
  {
    Config(
      if options.refreshInterval.Some? then options.refreshInterval.value else DefaultRefreshInterval,
      if options.maxDataPoints.Some? then options.maxDataPoints.value else DefaultMaxDataPoints)
  }

  /** What the hook exposes: the history window, the latest temperature,
      the loading flag and the last error. */
  datatype State = State(
    data: seq<Reading>,
    currentTemp: Option<real>,
    isLoading: bool,
    error: Option<FetchError>)

  /** The state before any attempt: no data, no temperature, loading, no
      error. */
  const Init: State := State([], None, true, None)

  /** The events of the polling loop. */
  datatype Event = Begin | Succeed(reading: Reading) | Fail(err: FetchError)

  /** An attempt starts: the previous error is cleared before the request
      settles, and nothing else changes. */
  function OnBegin(s: State): (r: State)
    ensures r.error == None
    ensures r.data == s.data && r.currentTemp == s.currentTemp && r.isLoading == s.isLoading
  {
    s.(error := None)
  }

  /** An attempt resolves with `reading`: the reading is appended to the
      history, which is cut to the window of `n`; it becomes the current
      temperature and loading ends. The error is left as the attempt's
      start set it. */
  function OnSucceed(s: State, reading: Reading, n: int): (r: State)
    ensures n >= 1 ==> |r.data| == Min(|s.data| + 1, n)
    ensures n == 0 ==> r.data == s.data + [reading]
    // For a window of one or more, the new reading is the last entry and
    // the current temperature is its temperature.
    ensures n >= 1 ==> |r.data| >= 1 && r.data[|r.data| - 1] == reading
    ensures r.currentTemp == Some(reading.temperature)
    ensures !r.isLoading && r.error == s.error
  {
    s.(currentTemp := Some(reading.temperature),
       data := KeepLast(s.data + [reading], n),
       isLoading := false)
  }

  /** An attempt rejects with `err`: the error is recorded and loading
      ends; the history and the current temperature are kept. */
  function OnFail(s: State, err: FetchError): (r: State)
    ensures r.error == Some(err) && !r.isLoading
    ensures r.data == s.data && r.currentTemp == s.currentTemp
  {
    s.(error := Some(err), isLoading := false)
  }

  /** Applies one event alone with window `n`, as a run of length one (the
      transition itself is written once, in `Run`): a start touches only the
      error, every settled attempt ends loading, and only a success touches
      the history. */
  function Step(s: State, e: Event, n: int): (r: State)
    ensures e.Begin? ==> r.isLoading == s.isLoading && r.data == s.data && r.error == None
    ensures !e.Begin? ==> !r.isLoading
    ensures !e.Succeed? ==> r.data == s.data && r.currentTemp == s.currentTemp
    ensures e.Fail? ==> r.error == Some(e.err)
  {
    assert [e][..0] == [];
    assert Run(s, [e][..0], n) == s;
    Run(s, [e], n)
  }

  /** The history is empty exactly when there is no current temperature,
      and otherwise the current temperature is that of the newest reading. */
  predicate Coherent(s: State) {
    && (s.data == [] <==> s.currentTemp.None?)
    && (s.data != [] ==> s.currentTemp == Some(s.data[|s.data| - 1].temperature))
  }

  /** Applies `events` in order, oldest first. Loading never comes back once
      it has ended, the bound of a window of one or more is kept, and for a
      non-negative window the history and the current temperature stay
      coherent. */
  function Run(s: State, events: seq<Event>, n: int): (r: State)
    ensures !s.isLoading ==> !r.isLoading
    ensures n >= 1 && |s.data| <= n ==> |r.data| <= n
    ensures n >= 0 && Coherent(s) ==> Coherent(r)
    decreases |events|
  {
    if events == [] then s
    else
      var before := Run(s, events[..|events| - 1], n);
      var e := events[|events| - 1];
      match e
      case Begin => OnBegin(before)
      case Succeed(reading) => OnSucceed(before, reading, n)
      case Fail(err) => OnFail(before, err)
  }

  /** The readings of the successful attempts among `events`, oldest first. */
  function Successes(events: seq<Event>): (rs: seq<Reading>)
    ensures forall r :: r in rs ==> Succeed(r) in events
    ensures forall i :: 0 <= i < |events| && events[i].Succeed? ==> events[i].reading in rs
    decreases |events|
  {
    if events == [] then []
    else
      var rest := Successes(events[..|events| - 1]);
      match events[|events| - 1]
      case Succeed(reading) => rest + [reading]
      case _ => rest
  }

  /** A state the hook can be in with window `n`. */
  ghost predicate Reachable(s: State, n: int) {
    exists events: seq<Event> :: s == Run(Init, events, n)
  }

  /** From the initial state, for a non-negative window, the history is the
      window of all successful readings so far, and the current temperature
      is that of the last of them. */
  lemma {:induction false} RunHistory(events: seq<Event>, n: int)
    requires n >= 0
    ensures Run(Init, events, n).data == KeepLast(Successes(events), n)
    ensures var rs := Successes(events);
      Run(Init, events, n).currentTemp == if rs == [] then None else Some(rs[|rs| - 1].temperature)
    decreases |events|
  {
    if events != [] {
      var prefix := events[..|events| - 1];
      var before := Run(Init, prefix, n);
      RunHistory(prefix, n);
      match events[|events| - 1]
      case Succeed(reading) =>
        assert Run(Init, events, n) == OnSucceed(before, reading, n);
        assert Successes(events) == Successes(prefix) + [reading];
        KeepLastAfterAppend(Successes(prefix), reading, n);
      case Begin =>
        assert Run(Init, events, n) == OnBegin(before);
        assert Successes(events) == Successes(prefix);
      case Fail(err) =>
        assert Run(Init, events, n) == OnFail(before, err);
        assert Successes(events) == Successes(prefix);
    }
  }

  /** For a window of one or more, after any events from the initial state
      the history holds exactly the last `Min(k, n)` of the `k` successful
      readings, in arrival order. */
  lemma HistoryIsLatestSuccesses(events: seq<Event>, n: int)
    requires n >= 1
    ensures var rs := Successes(events);
      Run(Init, events, n).data == rs[|rs| - Min(|rs|, n)..]
  {
    RunHistory(events, n);
  }

  /** From the initial state, the hook is still loading exactly when no
      attempt has settled. */
  lemma {:induction false} LoadingUntilSettled(events: seq<Event>, n: int)
    ensures Run(Init, events, n).isLoading <==> forall i :: 0 <= i < |events| ==> events[i].Begin?
    decreases |events|
  {
    if events != [] {
      var prefix := events[..|events| - 1];
      LoadingUntilSettled(prefix, n);
      assert forall i :: 0 <= i < |prefix| ==> prefix[i] == events[i];
    }
  }

  /** From the initial state, the history stays empty while the hook is
      still loading: nothing is charted before the first attempt settles. */
  lemma NoHistoryWhileLoading(events: seq<Event>, n: int)
    ensures Run(Init, events, n).isLoading ==> Run(Init, events, n).data == []
  {
    if Run(Init, events, n).isLoading {
      LoadingUntilSettled(events, n);
      FailuresKeepData(Init, events, n);
    }
  }

  /** Applying a sequence and then one more event is `Step` on the state the
      sequence reached: `Run` is the left fold of `Step`. Since `Step` is the
      run of one event, this is definitional. */
  lemma RunIsFoldOfStep(s: State, events: seq<Event>, e: Event, n: int)
    ensures Run(s, events + [e], n) == Step(Run(s, events, n), e, n)
  {
    var before := Run(s, events, n);
    assert (events + [e])[..|events|] == events;
    assert [e][..0] == [];
    assert Run(before, [e][..0], n) == before;
    match e
    case Begin =>
      assert Step(before, e, n) == OnBegin(before);
    case Succeed(reading) =>
      assert Step(before, e, n) == OnSucceed(before, reading, n);
    case Fail(err) =>
      assert Step(before, e, n) == OnFail(before, err);
  }

  /** Events that are only starts and failures leave the history and the
      current temperature as they were. */
  lemma {:induction false} FailuresKeepData(s: State, events: seq<Event>, n: int)
    requires forall i :: 0 <= i < |events| ==> !events[i].Succeed?
    ensures Run(s, events, n).data == s.data
    ensures Run(s, events, n).currentTemp == s.currentTemp
    decreases |events|
  {
    if events != [] {
      var prefix := events[..|events| - 1];
      assert forall i :: 0 <= i < |prefix| ==> prefix[i] == events[i];
      FailuresKeepData(s, prefix, n);
    }
  }

  /** Every state reachable with a window of one or more is coherent and
      holds at most `n` readings. */
  lemma ReachableInvariant(s: State, n: int)
    requires n >= 1 && Reachable(s, n)
    ensures Coherent(s) && |s.data| <= n
  {
  }

  /** `fetchData`: start an attempt, call the service, then apply the
      success or the failure handler to what it settled with. Stated for
      every service `svc`, so it covers `SharedService`, the one the hook
      calls. */
  function FetchData(s: State, svc: Service, network: string -> Outcome, now: int, n: int): (r: State)
    ensures var outcome := Decide(network(svc.apiUrl), now);
      && !r.isLoading
      && (outcome.Failure? ==> r.error == Some(outcome.error) && r.data == s.data && r.currentTemp == s.currentTemp)
      && (outcome.Success? ==> r.error == None && r.currentTemp == Some(outcome.value.temperature))
      && (outcome.Success? && n >= 1 ==> |r.data| >= 1 && r.data[|r.data| - 1] == outcome.value)
  {
    var started := OnBegin(s);
    match FetchTemperature(svc, network, now).result
    case Success(reading) => OnSucceed(started, reading, n)
    case Failure(err) => OnFail(started, err)
  }

  /** The survivors of a success are a contiguous suffix of the old
      history followed by the new reading, in arrival order: only the oldest
      entries are dropped. */
  lemma SuccessKeepsSuffix(s: State, reading: Reading, n: int)
    ensures var d := OnSucceed(s, reading, n).data;
      && |d| <= |s.data| + 1
      && d == (s.data + [reading])[|s.data| + 1 - |d|..]
  {
  }

  /** While the window is not full, a success evicts nothing. */
  lemma SuccessBelowBound(s: State, reading: Reading, n: int)
    requires |s.data| < n
    ensures OnSucceed(s, reading, n).data == s.data + [reading]
  {
  }

  /** Once the window is full, a success evicts exactly the oldest reading. */
  lemma SuccessAtBound(s: State, reading: Reading, n: int)
    requires 1 <= n == |s.data|
    ensures OnSucceed(s, reading, n).data == s.data[1..] + [reading]
  {
    assert (s.data + [reading])[1..] == s.data[1..] + [reading];
  }

  /** The event a settled call of the service amounts to. */
  function Settled(result: Result<Reading, FetchError>): Event {
    match result
    case Success(reading) => Succeed(reading)
    case Failure(err) => Fail(err)
  }

  /** One call of `fetchData` is the start event followed by the event of
      how the service settled, so every property of event sequences holds
      of any sequence of `fetchData` calls. */
  lemma FetchDataIsBeginThenSettle(s: State, svc: Service, network: string -> Outcome, now: int, n: int)
    ensures FetchData(s, svc, network, now, n) ==
      Run(s, [Begin, Settled(FetchTemperature(svc, network, now).result)], n)
  {
    var e := Settled(FetchTemperature(svc, network, now).result);
    var events := [Begin, e];
    assert events[..1] == [Begin];
    assert [Begin][..0] == [];
    assert Run(s, [Begin], n) == OnBegin(s);
    assert events[..1][..0] == [];
  }

  /** `slice(-0)` keeps the whole array: with a window of 0 the history is
      every successful reading ever received, so it has no bound. */
  lemma ZeroWindowKeepsEverything(events: seq<Event>)
    ensures Run(Init, events, 0).data == Successes(events)
  {
    RunHistory(events, 0);
  }
}

=== FILE: wrappers.dfy ===
/** Optional values and settled results, shared by the model: `Option` stands for the
    source's `T | null` values, `Result` for a promise that either resolves
    with a value or rejects with an error. */
module Wrappers {

  /** A value that may be absent (`null` or `undefined` in the source). */
  datatype Option<+T> = None | Some(value: T)

  /** The settlement of an asynchronous call: resolved with a value or
      rejected with an error. */
  datatype Result<+R, +E> = Success(value: R) | Failure(error: E)
}
